=== FILE: README.md ===
# Tic-tac-toe engine: a Dafny model

This project models the game engine of a single-page tic-tac-toe game in which a
human ("X") plays against the computer ("O") at one of three difficulty tiers.
The model covers:

- **Board** (`board.dfy`): nine cells in row-major order. Each cell is `Empty`
  or holds a player's `Mark`. The module also has the list of available cells
  and the placing of a mark.
- **Win detection** (`win.dfy`): the eight fixed winning triples and
  `CheckWinSimple`. A geometric description of rows, columns and diagonals is
  proved equal to the triple table.
- **Medium-tier lookahead** (`immediate.dfy`): `FindBestImmediateMove` returns
  the empty cell of the first triple where a player holds two cells and the
  third is empty.
- **Hard-tier search** (`search.dfy`): exhaustive, unpruned minimax, scored −10,
  +10 and 0. The pure version is `Minimax`. `MinimaxInPlace` runs the same
  search on a mutable array with mark-and-undo, and is proved to return the
  same result and to leave the array exactly as it found it.
- **Game controller** (`game.dfy`): the game state (board, whether moves are
  accepted, tier, the two win counters). It covers `checkWinner`, `makeMove`,
  the click guard, the computer's turn for each tier, restart and tier change.
  An invariant (`Consistent`) holds in every state reachable from page load,
  with the reply played at once.

Random draws are a parameter `roll: nat`: the pick is the available cell at
position `roll` modulo the number of available cells, and every empty cell is
the pick for some roll. In `Game`, the computer's delayed turn is a direct call,
so the invariant `Consistent` holds there with the reply played at once. The
page's own timer is modelled separately:

- **Delayed reply** (`delay.dfy`): a `Page` is the game together with the number
  of replies scheduled and not yet run. The `AsWritten` members follow the page:
  a click is accepted while a reply is pending, restart and a change of tier do
  not cancel it, and the reply runs whether or not the game is still on. Traces
  on concrete boards show what this allows (see "## Findings"). `Click`, `Fire`,
  `Restart` and `ChangeTier` are the corrected page, on which the invariant
  `Settled` holds and one click followed by its reply equals `HandleCellClick`.

Points where the code is followed exactly:

- The medium tier joins its two lookups with a truthiness test, so a winning
  cell 0 is lost (script.js:41). See "## Findings".
- `checkWinner` tests only the player who just moved (script.js:76-88).
  `Game.StatusOf` recomputes the full status, and the invariant shows the two
  agree on reachable states.
- The tier can be changed at any time, and a change always restarts the game
  (script.js:13-18).
- The hard tier returns no index on a decided board, not only on a full one
  (script.js:107-109), and the computer then does not move.

## Model

| member | source | states |
|---|---|---|
| Board.Other | script.js:115 | the side to move next is always the opponent of the side that just moved |
| Board.Count | script.js:62 | the count never exceeds the length, and it is zero exactly when the value does not occur |
| Board.Place | script.js:70 | the placed cell holds the mark and every other cell is unchanged; on an empty cell, one empty cell fewer and one more mark of that player, the other player's count unchanged |
| Board.EmptyIndices | script.js:106 | the available list holds exactly the empty cells, in strictly ascending order, and is empty exactly when the board is full |
| Win.CheckWinSimple | script.js:135-137 | true iff one of the eight triples has all three cells equal to the player's mark |
| Win.CheckWinIsLine | script.js:11 | the triple table is exactly the set of rows, columns and diagonals of the 3x3 grid, so a win means a full line |
| Win.DiagonalMeetsEveryLine | script.js:11 | every winning triple passes through cell 0, 4 or 8, so a player holding none of them has not won |
| Win.PlaceKeepsOtherWin | script.js:135-137 | a mark on an empty cell neither creates nor removes a win of the other player |
| Win.WinNeedsThreeMarks | script.js:135-137 | a player with fewer than three marks has no winning triple |
| Immediate.IndexOf | script.js:63 | the result is the first position holding the value |
| Immediate.Opportunity | script.js:60-64 | for one triple, a cell is returned exactly when the player holds two cells and the third is empty, and that cell is the empty one |
| Immediate.FindBestImmediateMove | script.js:58-67 | null iff no triple offers a completing cell; otherwise the completing cell of the first such triple in table order |
| Immediate.ImmediateMoveWins | script.js:58-67 | a found cell is empty, and marking it gives the player a winning triple |
| Immediate.NoImmediateMoveNoWin | script.js:58-67 | when nothing is found, no single mark on an empty cell gives the player a win it did not already have |
| Search.ScanFindsFirstBest | script.js:120-131 | the selection loop, started from the ±10000 sentinel, ends on a position that no score beats, with every earlier score strictly worse |
| Search.FirstBest | script.js:120-131 | the chosen candidate has an optimal score for the side to move, and every earlier candidate is strictly worse |
| Search.SelectBest | script.js:121-131 | the two loops with strict comparison pick an unbeaten candidate, and every earlier one is strictly worse |
| Search.ChildScores | script.js:111-118 | one score per available cell, each the search's value after that cell is marked, each in {−10, 0, 10} |
| Search.Minimax | script.js:105-133 | −10 when X has won (tested first), +10 when O has won, 0 on a full board; every score is −10, 0 or 10; an index is returned exactly on undecided boards, and it is an empty cell |
| Search.MinimaxPicksFirstOptimal | script.js:111-132 | on an undecided board the chosen empty cell's score is the maximum (for O) or minimum (for X) over all empty cells, and every lower-indexed empty cell is strictly worse |
| Search.MinimaxInPlace | script.js:105-133 | the mutating search restores the board exactly and returns the pure search's result |
| Search.TryAll | script.js:111-118 | the trial loop restores the board and yields each available cell's score in order |
| Search.TryCell | script.js:113-116 | one trial marks, searches and erases, leaving the board unchanged |
| Game.CheckWinner | script.js:76-88 | a winning triple for the mover ends the game and adds one to exactly that player's counter; otherwise a full board ends the game with counters unchanged; otherwise nothing changes |
| Game.MakeMove | script.js:69-74 | only the chosen cell changes and it holds the mark; the game stays on exactly when it was on, the mover has no line and the board is not full; only the mover's counter can grow, by one exactly when the mover now has a line |
| Game.RandomEmpty | script.js:36-37 | the pick is an empty cell, and there is none exactly when the board is full |
| Game.RandomEmptyReachesEvery | script.js:37 | every empty cell is the pick for some draw |
| Game.MediumMoveAsWritten | script.js:41-45 | the pick is an empty cell and is absent only on a full board; the computer's winning cell is taken whenever it is not cell 0; when the computer's lookup finds nothing or cell 0, the human's threat cell is taken, and failing that the random pick |
| Game.MediumMove | script.js:39-46 | the intended medium tier: an available win for O is taken and wins; failing that, X's winning cell is taken; the pick is empty and absent only on a full board |
| Game.MediumAsWrittenDiffersOnlyAtZero | script.js:41 | the code's combination differs from the intended one only when O's winning cell is cell 0 |
| Game.MediumAsWrittenMissesWin | script.js:41 | on a concrete board the code blocks at cell 5, which does not win, while the intended choice, cell 0, wins |
| Game.CpuMove | script.js:31-50 | the pick is an empty cell; no move exactly on a full board, or in the hard tier on a decided board; the easy tier plays the random pick, the medium tier the truthiness-joined lookups, the hard tier the search's index |
| Game.CpuTurn | script.js:31-55 | the tier's pick is marked "O" and nothing else changes on the board; no pick leaves the game as it was; after a move the game stays on exactly when it was on and "O" has no line and the board is not full; on an undecided board exactly one empty cell is marked; the human's counter is untouched, and the computer's rises by one exactly when its move leaves a line of "O" |
| Game.HandleCellClick | script.js:20-29 | a click on a taken cell or after the game has ended changes nothing; otherwise the clicked cell holds X, every marked cell keeps its mark, and at most one other cell changes, from empty to "O" (exactly one when X's move leaves the board undecided) |
| Game.ResetGame | script.js:96-102 | every cell is empty and moves are accepted; tier and counters are kept |
| Game.SetDifficulty | script.js:13-18 | the tier is the selected one, and the game is reset with counters kept |
| Game.ResetIsConsistent | script.js:6-9 | page load, restart and a change of tier all yield a consistent state |
| Game.HumanMoveOutcome | script.js:22-25 | from a consistent state the human's move either decides the game, crediting only a human win, or leaves an undecided board with one more X than O |
| Game.ComputerMoveOutcome | script.js:52-54 | the computer's mark on an empty cell of such a board yields a consistent state where the human has not won and only a computer win is credited |
| Game.CpuReplyConsistent | script.js:31-55 | the computer's turn on an undecided board, for every tier and draw, yields a consistent state and credits only a computer win |
| Game.ClickKeepsConsistent | script.js:20-29 | with the reply played at once, a click keeps the state consistent: moves are accepted exactly while the board is undecided, and X and O alternate starting with X |
| Game.ClickCreditsWinnerOnce | script.js:20-29 | with the reply played at once, a click on a live game changes the counters only by crediting the winner once; a click on a finished game leaves them alone |
| Delay.EasyStartIsFresh | script.js:6-18 | choosing the easy tier on the first page gives a fresh page, so the starting condition of the traces below can be met |
| Delay.ClickAsWritten | script.js:20-28 | the guard rejects a taken cell or a finished game and nothing else; an accepted click writes X, ends the game exactly on a line of X or a full board, credits the human exactly on a line, keeps the computer's counter and the tier, and schedules one more reply exactly when the game goes on, whatever is already pending |
| Delay.FireAsWritten | script.js:27 | a scheduled reply runs on the current board even after the game has ended: one reply fewer pending, the tier kept, an easy- or medium-tier reply on a board with room marks an empty cell, a hard-tier reply plays the search's cell on an undecided board and does nothing on a decided or full one, a reply that makes no move leaves the game alone, and after a move the game stays on exactly when it was on and neither a line of "O" nor a full board appeared, while the computer's counter rises exactly when "O" holds a line |
| Delay.RestartAsWritten | script.js:96-98 | a fresh board with moves accepted, counters and tier kept, and every scheduled reply still pending |
| Delay.ChangeTierAsWritten | script.js:13-18 | a fresh board under the new tier, counters kept, and every scheduled reply still pending |
| Delay.DoubleClickBeforeReply | script.js:22-27 | on a fresh page two clicks before the reply are both accepted: two X marks, no O, two replies pending, and a state no alternating game reaches |
| Delay.StaleReplyAfterRestart | script.js:96-98 | a click, then a restart before the reply: the easy-tier reply plays O first on the fresh board, a state no alternating game reaches |
| Delay.StaleReplyCreditsTwice | script.js:77-81 | a concrete easy-tier game in which two clicks before the reply leave two replies pending; the first completes O's top row and credits the computer, the second runs on the finished game and credits it again |
| Delay.Click | script.js:20-29 | corrected click: ignored while a reply is pending, on a taken cell or after the game ends; otherwise X is written and at most one reply is pending, exactly when the game goes on |
| Delay.Fire | script.js:31-55 | corrected reply: does nothing on a finished game; otherwise at most one cell changes, from empty to "O", and the human's counter is untouched |
| Delay.Restart | script.js:96-102 | corrected restart: a fresh page with no reply pending, counters and tier kept |
| Delay.ChangeTier | script.js:13-18 | corrected change of tier: a fresh page under the new tier with no reply pending, counters kept |
| Delay.RestartSettles | script.js:6-9 | page load, restart and change of tier give a settled page |
| Delay.ClickKeepsSettled | script.js:20-29 | a corrected click keeps the page settled and moves a counter only when X's move decides the game, crediting the winner once |
| Delay.FireKeepsSettled | script.js:31-55 | the corrected reply keeps the page settled, never leaves a human win, and credits only a computer win, once |
| Delay.ClickThenFireIsHandleCellClick | script.js:20-29 | a corrected click followed by its reply gives the same game as the controller's click with the reply played at once |

## Left out

- Page rendering: cell text and classes, the status line, the score display and the theme classes (script.js:1-4, 15-16, 26, 71-72, 80, 82, 85, 90-94, 99-101, 139-140). These are presentation only.
- The 600 ms delay before the computer's turn (script.js:27) is modelled only as a count of pending replies in `Delay`; time itself is not modelled. `Game.HandleCellClick` plays the reply at once, so `Game.Consistent` and the lemmas built on it hold only for that direct call. On the page, `gameActive` stays true during the wait, so a second click is accepted: two X marks in a row, then two computer turns (script.js:22-27). `cpuTurn` never reads `gameActive`, and restart or a change of tier does not cancel the timer, so a stale turn after a restart plays O first on the fresh board (script.js:31-55, 96-98, 13-18). In the easy and medium tiers, a second pending turn after a computer win marks another cell and credits the computer twice (script.js:77, 81). The hard tier finds no move on a decided board, so there the stale turn does nothing. These are shown in `Delay`, and the corrected page is modelled there too.
- The distribution of `Math.random` (script.js:37, 44). A draw is the `roll` parameter and only reachability of every empty cell is proved.
- The string-to-number conversion of the clicked cell's index (script.js:21). Indices are integers 0..8.
- A theorem that the hard tier never loses, and the concrete hard-tier scenarios (the reply to a centre opening). Both need the whole game tree to be evaluated. The model proves local optimality of each search step instead.
- `checkWinner` tests only the player who just moved, and `makeMove` does not check that the cell is empty. The model does the same. The click guard and the search keep every move on an empty cell, as the frame clauses of `Game.CpuTurn` and `Game.HandleCellClick` show: every changed cell was empty.
- The interleavings of the page's timer are shown by concrete traces in `Delay`, not by a theorem over all orders of clicks and replies.

## Findings

| source | as written | input that shows it | evidently intended | confidence | as-written member | corrected member |
|---|---|---|---|---|---|---|
| script.js:41 | the medium tier joins the computer's winning cell and the human's threat cell with a truthiness test, so a winning cell 0 counts as "nothing found" | cells (row-major) `_ O O / X X _ / _ _ X`, computer to move in the medium tier: the code plays cell 5, which only blocks | take the win at cell 0 whenever the computer can complete a line | high; not executed | Game.MediumAsWrittenMissesWin | Game.MediumMove |
| script.js:22-27 | the click guard tests only the cell and `gameActive`, which stays true while the reply waits, so a second click is accepted before the computer has moved | fresh game, click cell 0 and then cell 1 within 600 ms: X holds 0 and 1, O holds nothing, two replies are pending | ignore clicks while the computer's reply is pending | high; not executed | Delay.DoubleClickBeforeReply | Delay.ClickKeepsSettled |
| script.js:96-98 | restart resets the board but leaves the scheduled `cpuTurn` in place, and `cpuTurn` does not check `gameActive` | easy tier, fresh game: click cell 4, press restart within 600 ms; the reply with draw 0 puts O on cell 0 of the fresh board | cancel the pending reply on restart and on a change of tier | high; not executed | Delay.StaleReplyAfterRestart | Delay.RestartSettles |
| script.js:77-81 | a reply that runs after the game has ended still moves, and `checkWinner` credits "O" again for the line it already holds | easy tier, draw 0 every time: X 3, O 0, X 5, O 1, then clicks on 6 and 7 within 600 ms; the first reply completes 0-1-2 and the computer's counter rises by one, the second marks 4 and it rises again | a reply on a finished game does nothing, so each game credits its winner once | high; not executed | Delay.StaleReplyCreditsTwice | Delay.FireKeepsSettled |

The controller's `Game.CpuTurn` follows the code as written (`Game.MediumMoveAsWritten`). `Game.MediumMove` is the corrected tier. `Game.MediumAsWrittenDiffersOnlyAtZero` shows the two differ only when the computer's winning cell is cell 0. In `Delay`, the `AsWritten` members follow the page, and the corrected `Click`, `Fire`, `Restart` and `ChangeTier` keep the invariant `Settled`.

=== FILE: board.dfy ===
/**
  The 3x3 board of the game: nine cells in row-major order, each empty or
  holding the mark of one of the two players.  The human plays "X" and the
  computer plays "O"; an empty cell is the empty string in the game code.
 */
module Board {

  datatype Player = X | O

  datatype Cell = Empty | Mark(player: Player)

  /** A cell position, 0..8 in row-major order. */
  type Index = i: int | 0 <= i < 9

  type Board = b: seq<Cell> | |b| == 9
    witness [Empty, Empty, Empty, Empty, Empty, Empty, Empty, Empty, Empty]

  /** The board a new game starts from. */
  const EmptyBoard: Board := [Empty, Empty, Empty, Empty, Empty, Empty, Empty, Empty, Empty]

  /** The opponent of `p`: the mark the search places on the next ply. */
  function Other(p: Player): (q: Player)
    ensures q != p
  {
    if p == O then X else O
  }

  /** A board with no empty cell left. */
  predicate Full(b: Board) {
    Empty !in b
  }

  /** The number of occurrences of `c` in `s`. */
  function Count(s: seq<Cell>, c: Cell): (n: nat)
    ensures n <= |s|
    ensures n == 0 <==> c !in s
  {
    if s == [] then 0 else (if s[0] == c then 1 else 0) + Count(s[1..], c)
  }

  /** Writing `v` at position `i` changes the count of `c` only through that one cell. */
  lemma {:induction false} CountUpdate(s: seq<Cell>, i: nat, v: Cell, c: Cell)
    requires i < |s|
    ensures Count(s[i := v], c)
            == Count(s, c) - (if s[i] == c then 1 else 0) + (if v == c then 1 else 0)
  {
    if i == 0 {
      assert s[i := v][1..] == s[1..];
    } else {
      assert s[i := v][1..] == s[1..][i - 1 := v];
      CountUpdate(s[1..], i - 1, v, c);
    }
  }

  /** A three-element sequence holds `c` as many times as its elements equal `c`. */
  lemma CountOfThree(a: Cell, b: Cell, d: Cell, c: Cell)
    ensures Count([a, b, d], c)
            == (if a == c then 1 else 0) + (if b == c then 1 else 0) + (if d == c then 1 else 0)
  {
    assert [a, b, d][1..] == [b, d];
    assert [b, d][1..] == [d];
    assert [d][1..] == [];
  }

  /** Places the mark of `p` at `i`; the caller decides whether `i` was empty. */
  function Place(b: Board, i: Index, p: Player): (r: Board)
    ensures r[i] == Mark(p)
    ensures forall j: Index :: j != i ==> r[j] == b[j]
    ensures b[i] == Empty ==> Count(r, Empty) == Count(b, Empty) - 1
    ensures b[i] == Empty ==> Count(r, Mark(p)) == Count(b, Mark(p)) + 1
    ensures b[i] == Empty ==> Count(r, Mark(Other(p))) == Count(b, Mark(Other(p)))
  {
    var r := b[i := Mark(p)];
    CountUpdate(b, i, Mark(p), Empty);
    CountUpdate(b, i, Mark(p), Mark(p));
    CountUpdate(b, i, Mark(p), Mark(Other(p)));
    r
  }

  /** The empty positions of `b` at index `k` or later, in ascending order. */
  function EmptyFrom(b: Board, k: nat): (avail: seq<Index>)
    requires k <= 9
    ensures forall j :: 0 <= j < |avail| ==> k <= avail[j] && b[avail[j]] == Empty
    ensures forall i: Index :: k <= i && b[i] == Empty ==> i in avail
    ensures forall j, j' :: 0 <= j < j' < |avail| ==> avail[j] < avail[j']
    decreases 9 - k
  {
    if k == 9 then []
    else if b[k] == Empty then [k as Index] + EmptyFrom(b, k + 1)
    else EmptyFrom(b, k + 1)
  }

  /**
    The list of available cells the game builds before every random pick and
    every search step: the empty positions in ascending order.
   */
  function EmptyIndices(b: Board): (avail: seq<Index>)
    ensures forall j :: 0 <= j < |avail| ==> b[avail[j]] == Empty
    ensures forall i: Index :: b[i] == Empty ==> i in avail
    ensures forall j, j' :: 0 <= j < j' < |avail| ==> avail[j] < avail[j']
    ensures |avail| == 0 <==> Full(b)
  {
    EmptyFrom(b, 0)
  }

}

=== FILE: delay.dfy ===
/**
  The page's timer between the human's move and the computer's reply.  A
  click plays "X" and, when the game goes on, schedules the reply for later;
  the reply then runs whatever has happened in between.  A `Page` is the
  game together with the number of replies scheduled and not yet run.

  The members suffixed `AsWritten` follow the page: a click is accepted
  while a reply is pending, a restart leaves pending replies scheduled, and
  a reply does not look at whether the game is still on.  `Click`, `Fire`,
  `Restart` and `ChangeTier` are the intended behaviour, under which one
  click followed by its reply is exactly `HandleCellClick`.
 */
module Delay {

  import opened Wrappers
  import opened Board
  import opened Win
  import opened Search
  import opened Game

  datatype Page = Page(game: Game, pending: nat)

  /** A click as the page handles it: the usual guard, the human's move, and a reply scheduled on top of any already pending. */
  function ClickAsWritten(s: Page, i: Index): (r: Page)
    ensures s.game.board[i] != Empty || !s.game.active ==> r == s
    ensures s.game.board[i] == Empty && s.game.active ==>
              && r.game.board == Place(s.game.board, i, X)
              && (r.pending == s.pending + 1 <==> r.game.active)
              && (r.pending == s.pending <==> !r.game.active)
              && (r.game.active <==> !CheckWinSimple(r.game.board, X) && !Full(r.game.board))
              && r.game.scores.user == s.game.scores.user + (if CheckWinSimple(r.game.board, X) then 1 else 0)
              && r.game.scores.cpu == s.game.scores.cpu
              && r.game.difficulty == s.game.difficulty
  {
    if s.game.board[i] != Empty || !s.game.active then s
    else
      var g := MakeMove(s.game, i, X);
      assert g.board == Place(s.game.board, i, X);
      Page(g, if g.active then s.pending + 1 else s.pending)
  }

  /**
    A scheduled reply as the page runs it: the computer's turn is taken on
    the current board even when the game is already over, and a line of
    "O" on the board after that move credits the computer again.
   */
  function FireAsWritten(s: Page, roll: nat): (r: Page)
    requires s.pending > 0
    ensures r.pending == s.pending - 1
    ensures r.game.difficulty == s.game.difficulty
    ensures s.game.difficulty != Hard && !Full(s.game.board) ==>
              exists c: Index :: s.game.board[c] == Empty && r.game.board == Place(s.game.board, c, O)
    ensures s.game.difficulty == Hard && !Terminal(s.game.board) ==>
              r.game.board == Place(s.game.board, Minimax(s.game.board, O).index.value, O)
    ensures s.game.difficulty == Hard && Terminal(s.game.board) ==> r.game == s.game
    ensures r.game.board == s.game.board ==> r.game == s.game
    ensures r.game.board != s.game.board ==>
              && (r.game.active <==> s.game.active && !CheckWinSimple(r.game.board, O) && !Full(r.game.board))
              && r.game.scores.cpu == s.game.scores.cpu + (if CheckWinSimple(r.game.board, O) then 1 else 0)
    ensures r.game.scores.user == s.game.scores.user
  {
    var g := CpuTurn(s.game, roll);
    assert s.game.difficulty != Hard && !Full(s.game.board) ==> CpuMove(s.game.board, s.game.difficulty, roll).Some?;
    Page(g, s.pending - 1)
  }

  /** Restart as the page does it: a fresh board, with pending replies still scheduled. */
  function RestartAsWritten(s: Page): (r: Page)
    ensures forall j: Index :: r.game.board[j] == Empty
    ensures r.game.active && r.pending == s.pending
    ensures r.game.scores == s.game.scores && r.game.difficulty == s.game.difficulty
  {
    Page(ResetGame(s.game), s.pending)
  }

  /** A change of tier as the page does it: a fresh board under the new tier, pending replies kept. */
  function ChangeTierAsWritten(s: Page, d: Difficulty): (r: Page)
    ensures forall j: Index :: r.game.board[j] == Empty
    ensures r.game.active && r.pending == s.pending
    ensures r.game.scores == s.game.scores && r.game.difficulty == d
  {
    Page(SetDifficulty(s.game, d), s.pending)
  }

  /** A page where a game has just started: no marks, moves accepted, no reply pending. */
  predicate Fresh(s: Page) {
    s.pending == 0 && s.game.active && forall j: Index :: s.game.board[j] == Empty
  }

  /** The first page of every session with the easy tier selected is fresh. */
  lemma EasyStartIsFresh()
    ensures Fresh(Page(SetDifficulty(Initial, Easy), 0))
  {
  }

  /** A board without marks holds no "X" and no "O". */
  lemma NoMarks(b: Board)
    requires forall j: Index :: b[j] == Empty
    ensures Count(b, Mark(X)) == 0 && Count(b, Mark(O)) == 0
  {
    assert forall k :: 0 <= k < |b| ==> b[k] == Empty;
  }

  /** The human's "X" at `i` is legal and neither completes a line nor fills the board. */
  ghost predicate QuietClick(b: Board, i: Index) {
    b[i] == Empty && !CheckWinSimple(Place(b, i, X), X) && !Full(Place(b, i, X))
  }

  /** Cell `c` is the lowest empty cell, and an "O" there neither completes a line nor fills the board. */
  ghost predicate QuietReply(b: Board, c: Index) {
    && b[c] == Empty && (forall j: Index :: j < c ==> b[j] != Empty)
    && !CheckWinSimple(Place(b, c, O), O) && !Full(Place(b, c, O))
  }

  /** A move that neither completes a line of the mover nor fills the board only writes the mark. */
  lemma QuietMove(g: Game, i: Index, p: Player)
    requires g.board[i] == Empty
    requires !CheckWinSimple(Place(g.board, i, p), p) && !Full(Place(g.board, i, p))
    ensures MakeMove(g, i, p) == g.(board := Place(g.board, i, p))
  {
  }

  /** A move of the computer that completes a line ends the game and credits the computer once. */
  lemma ComputerWinningMove(g: Game, i: Index)
    requires CheckWinSimple(Place(g.board, i, O), O)
    ensures MakeMove(g, i, O) == g.(board := Place(g.board, i, O), active := false, scores := g.scores.(cpu := g.scores.cpu + 1))
  {
  }

  /** An accepted click that neither wins nor fills the board schedules one more reply. */
  lemma ClickStep(s: Page, i: Index)
    requires s.game.active && QuietClick(s.game.board, i)
    ensures ClickAsWritten(s, i).game == s.game.(board := Place(s.game.board, i, X))
    ensures ClickAsWritten(s, i).pending == s.pending + 1
  {
  }

  /** With draw 0 the easy tier's reply plays the lowest empty cell. */
  lemma EasyReplyStep(s: Page, c: Index)
    requires s.pending > 0 && s.game.difficulty == Easy
    requires s.game.board[c] == Empty
    requires forall j: Index :: j < c ==> s.game.board[j] != Empty
    ensures FireAsWritten(s, 0).game == MakeMove(s.game, c, O)
    ensures FireAsWritten(s, 0).pending == s.pending - 1
  {
    var avail := EmptyIndices(s.game.board);
    assert c in avail;
    var k :| 0 <= k < |avail| && avail[k] == c;
    assert RandomEmpty(s.game.board, 0) == Some(c);
  }

  /** Two quick clicks on a fresh page are both accepted: two "X" marks, no "O", two replies pending. */
  lemma DoubleClickBeforeReply(s: Page)
    requires Fresh(s)
    ensures var r := ClickAsWritten(ClickAsWritten(s, 0), 1);
            && r.game.board == Place(Place(s.game.board, 0, X), 1, X)
            && r.pending == 2
            && !Consistent(r.game)
  {
    var b1 := Place(s.game.board, 0, X);
    var b2 := Place(b1, 1, X);
    NoMarks(s.game.board);
    WinNeedsThreeMarks(b1, X);
    WinNeedsThreeMarks(b2, X);
    assert b1[8] == Empty && b2[8] == Empty;
    ClickStep(s, 0);
    ClickStep(ClickAsWritten(s, 0), 1);
  }

  /** A board whose only mark is an "O" is not one the game can reach. */
  lemma LoneComputerMark(g: Game, b0: Board)
    requires forall j: Index :: b0[j] == Empty
    requires g.board == Place(b0, 0, O)
    ensures !Consistent(g)
  {
    NoMarks(b0);
    assert Count(g.board, Mark(X)) == 0 && Count(g.board, Mark(O)) == 1;
  }

  /** The easy tier's reply with draw 0 on a board without marks puts a lone "O" on cell 0. */
  lemma ReplyOnEmptyBoard(t: Page)
    requires t.pending > 0 && t.game.difficulty == Easy
    requires forall j: Index :: t.game.board[j] == Empty
    ensures var r := FireAsWritten(t, 0);
            && r.game.board == Place(t.game.board, 0, O)
            && r.pending == t.pending - 1
            && !Consistent(r.game)
  {
    var b := Place(t.game.board, 0, O);
    NoMarks(t.game.board);
    WinNeedsThreeMarks(b, O);
    assert b[8] == Empty;
    EasyReplyStep(t, 0);
    QuietMove(t.game, 0, O);
    LoneComputerMark(FireAsWritten(t, 0).game, t.game.board);
  }

  /** A reply scheduled before a restart plays "O" first on the fresh board of the easy tier. */
  lemma StaleReplyAfterRestart(s: Page)
    requires Fresh(s) && s.game.difficulty == Easy
    ensures var s1 := RestartAsWritten(ClickAsWritten(s, 4));
            && s1.pending == 1
            && var r := FireAsWritten(s1, 0);
            && r.game.board == Place(s.game.board, 0, O)
            && r.pending == 0
            && !Consistent(r.game)
  {
    ClickThenRestart(s);
    ReplyOnEmptyBoard(Page(s.game, 1));
  }

  /** A click on a fresh page followed by a restart gives the same fresh game with the click's reply pending. */
  lemma ClickThenRestart(s: Page)
    requires Fresh(s)
    ensures RestartAsWritten(ClickAsWritten(s, 4)) == Page(s.game, 1)
  {
    var b1 := Place(s.game.board, 4, X);
    NoMarks(s.game.board);
    WinNeedsThreeMarks(b1, X);
    assert b1[8] == Empty;
    ClickStep(s, 4);
    assert RestartAsWritten(ClickAsWritten(s, 4)).game.board == s.game.board;
  }

  /**
    One exchange of the easy tier with draw 0: the human's mark at `i`
    leaves the game open, and the reply takes the lowest empty cell `c`
    without completing a line.
   */
  lemma EasyExchange(s: Page, i: Index, c: Index)
    requires s.pending == 0 && s.game.active && s.game.difficulty == Easy
    requires QuietClick(s.game.board, i) && QuietReply(Place(s.game.board, i, X), c)
    ensures ClickAsWritten(s, i).pending == 1
    ensures FireAsWritten(ClickAsWritten(s, i), 0).game == s.game.(board := Place(Place(s.game.board, i, X), c, O))
    ensures FireAsWritten(ClickAsWritten(s, i), 0).pending == 0
  {
    ClickStep(s, i);
    var p1 := Page(s.game.(board := Place(s.game.board, i, X)), 1);
    EasyReplyStep(p1, c);
    QuietMove(p1.game, c, O);
  }

  /** On a board without marks, "X" at 3 is quiet, and "O" then takes 0, the lowest empty cell, quietly. */
  lemma FirstBoards(b0: Board)
    requires forall j: Index :: b0[j] == Empty
    ensures QuietClick(b0, 3) && QuietReply(Place(b0, 3, X), 0)
  {
    var b1 := Place(b0, 3, X);
    var b2 := Place(b1, 0, O);
    NoMarks(b0);
    DiagonalMeetsEveryLine(b1, X);
    WinNeedsThreeMarks(b2, O);
    assert b1[8] == Empty && b2[8] == Empty;
  }

  /** After that exchange, "X" at 5 is quiet, and "O" then takes 1, the lowest empty cell, quietly. */
  lemma SecondBoards(b0: Board)
    requires forall j: Index :: b0[j] == Empty
    ensures var b2 := Place(Place(b0, 3, X), 0, O);
            QuietClick(b2, 5) && QuietReply(Place(b2, 5, X), 1)
  {
    var b3 := Place(Place(Place(b0, 3, X), 0, O), 5, X);
    var b4 := Place(b3, 1, O);
    NoMarks(b0);
    assert Count(b4, Mark(O)) == 2;
    DiagonalMeetsEveryLine(b3, X);
    WinNeedsThreeMarks(b4, O);
    assert b3[0] != Empty && b3[8] == Empty && b4[8] == Empty;
  }

  /**
    On a fresh easy-tier page the human plays 3 and then 5, and each reply
    with draw 0 takes the lowest empty cell: 0, then 1.
   */
  lemma OpeningExchanges(s: Page)
    requires Fresh(s) && s.game.difficulty == Easy
    ensures var p1 := ClickAsWritten(s, 3);
            && p1.pending == 1
            && var p3 := ClickAsWritten(FireAsWritten(p1, 0), 5);
            && p3.pending == 1
            && FireAsWritten(p3, 0).game
               == s.game.(board := Place(Place(Place(Place(s.game.board, 3, X), 0, O), 5, X), 1, O))
            && FireAsWritten(p3, 0).pending == 0
  {
    var b0 := s.game.board;
    FirstBoards(b0);
    EasyExchange(s, 3, 0);
    SecondBoards(b0);
    EasyExchange(FireAsWritten(ClickAsWritten(s, 3), 0), 5, 1);
  }

  /** With draw 0, the easy tier's reply that completes a line of "O" ends the game and credits the computer. */
  lemma WinningReply(s: Page, c: Index)
    requires s.pending > 0 && s.game.difficulty == Easy
    requires s.game.board[c] == Empty && forall j: Index :: j < c ==> s.game.board[j] != Empty
    requires CheckWinSimple(Place(s.game.board, c, O), O)
    ensures FireAsWritten(s, 0).game
            == s.game.(board := Place(s.game.board, c, O), active := false,
                       scores := s.game.scores.(cpu := s.game.scores.cpu + 1))
    ensures FireAsWritten(s, 0).pending == s.pending - 1
  {
    EasyReplyStep(s, c);
    ComputerWinningMove(s.game, c);
  }

  /** Cells 6, 7 and 8 are empty, and "X" holds neither 0 nor 4. */
  ghost predicate EndgameOpen(b: Board) {
    b[6] == Empty && b[7] == Empty && b[8] == Empty && b[0] != Mark(X) && b[4] != Mark(X)
  }

  /** After the opening, "X" at 6 and then at 7 leave the game open. */
  lemma HumanEndgameBoards(b4: Board)
    requires EndgameOpen(b4)
    ensures QuietClick(b4, 6) && QuietClick(Place(b4, 6, X), 7)
  {
    var b5 := Place(b4, 6, X);
    var b6 := Place(b5, 7, X);
    DiagonalMeetsEveryLine(b5, X);
    DiagonalMeetsEveryLine(b6, X);
    assert b5[8] == Empty && b6[8] == Empty;
  }

  /** Two clicks before the reply on an open game: both accepted, two more replies pending. */
  lemma TwoQuickClicks(t: Page, i: Index, k: Index)
    requires t.game.active && QuietClick(t.game.board, i) && QuietClick(Place(t.game.board, i, X), k)
    ensures ClickAsWritten(ClickAsWritten(t, i), k).game == t.game.(board := Place(Place(t.game.board, i, X), k, X))
    ensures ClickAsWritten(ClickAsWritten(t, i), k).pending == t.pending + 2
  {
    ClickStep(t, i);
    var p := ClickAsWritten(t, i);
    assert p == Page(t.game.(board := Place(t.game.board, i, X)), t.pending + 1);
    ClickStep(p, k);
  }

  /**
    A reply on an easy-tier board where the computer holds cells 0 and 1 and
    cell 2 is empty: it takes 2, completes the top row, ends the game and
    credits the computer.
   */
  lemma TopRowReply(p: Page)
    requires p.pending > 0 && p.game.difficulty == Easy
    requires p.game.board[0] == Mark(O) && p.game.board[1] == Mark(O) && p.game.board[2] == Empty
    ensures var q := FireAsWritten(p, 0);
            && !q.game.active && q.pending == p.pending - 1 && q.game.difficulty == Easy
            && q.game.scores.cpu == p.game.scores.cpu + 1
            && q.game.board == Place(p.game.board, 2, O)
  {
    assert Filled(Place(p.game.board, 2, O), WinPatterns[0], O);
    assert forall j: Index :: j < 2 ==> p.game.board[j] != Empty;
    WinningReply(p, 2);
  }

  /**
    A reply after the computer has completed the top row, with cell 3 taken
    and cell 4 empty: the game is over, yet the reply takes 4 and credits the
    computer again.
   */
  lemma ReplyAfterTopRow(q: Page)
    requires q.pending > 0 && q.game.difficulty == Easy
    requires q.game.board[0] == Mark(O) && q.game.board[1] == Mark(O) && q.game.board[2] == Mark(O)
    requires q.game.board[3] != Empty && q.game.board[4] == Empty
    ensures FireAsWritten(q, 0).game.scores.cpu == q.game.scores.cpu + 1
  {
    assert Filled(Place(q.game.board, 4, O), WinPatterns[0], O);
    assert forall j: Index :: j < 4 ==> q.game.board[j] != Empty;
    WinningReply(q, 4);
  }

  /**
    `p` has two replies pending with the draw 0: the first ends the game and
    credits the computer once, and the second, run on the finished game,
    credits it again, so that a single game raises the counter from `cpu`
    to `cpu + 2`.
   */
  ghost predicate RepliesCreditTwice(p: Page, cpu: nat) {
    && p.pending == 2
    && var q := FireAsWritten(p, 0);
    && !q.game.active && q.pending == 1 && q.game.scores.cpu == cpu + 1
    && FireAsWritten(q, 0).game.scores.cpu == cpu + 2
  }

  /** The computer holds cells 0 and 1, cell 2 is empty, cell 3 is taken and cell 4 is empty. */
  ghost predicate TopRowOpen(b: Board) {
    b[0] == Mark(O) && b[1] == Mark(O) && b[2] == Empty && b[3] != Empty && b[4] == Empty
  }

  /**
    Two pending replies on an easy-tier board where the top row is open for
    the computer: the first reply completes it and credits the computer; the
    second still runs and credits it again.
   */
  lemma TwoRepliesCreditTwice(p: Page)
    requires p.pending == 2 && p.game.difficulty == Easy && TopRowOpen(p.game.board)
    ensures RepliesCreditTwice(p, p.game.scores.cpu)
  {
    TopRowReply(p);
    ReplyAfterTopRow(FireAsWritten(p, 0));
  }

  /** The cells of the opening's board, and of that board after "X" at 6 and 7, that the game below needs. */
  lemma EndgameCells(b0: Board)
    requires forall j: Index :: b0[j] == Empty
    ensures var b4 := Place(Place(Place(Place(b0, 3, X), 0, O), 5, X), 1, O);
            EndgameOpen(b4) && TopRowOpen(Place(Place(b4, 6, X), 7, X))
  {
  }

  /** After the opening, quick clicks at 6 and 7 leave two replies pending with the top row open for the computer. */
  lemma DoubleClickOpensTopRow(t: Page, b0: Board)
    requires forall j: Index :: b0[j] == Empty
    requires t.pending == 0 && t.game.active && t.game.difficulty == Easy
    requires t.game.board == Place(Place(Place(Place(b0, 3, X), 0, O), 5, X), 1, O)
    ensures var p := ClickAsWritten(ClickAsWritten(t, 6), 7);
            p.pending == 2 && p.game.difficulty == Easy && TopRowOpen(p.game.board)
  {
    EndgameCells(b0);
    HumanEndgameBoards(t.game.board);
    TwoQuickClicks(t, 6, 7);
  }

  /**
    After the opening, two quick clicks at 6 and 7 schedule two replies. The
    first completes the computer's top row, ends the game and credits the
    computer; the second still runs, marks cell 4, and credits it again.
   */
  lemma DoubleClickThenWin(t: Page, b0: Board)
    requires forall j: Index :: b0[j] == Empty
    requires t.pending == 0 && t.game.active && t.game.difficulty == Easy
    requires t.game.board == Place(Place(Place(Place(b0, 3, X), 0, O), 5, X), 1, O)
    ensures RepliesCreditTwice(ClickAsWritten(ClickAsWritten(t, 6), 7), t.game.scores.cpu)
  {
    DoubleClickOpensTopRow(t, b0);
    TwoRepliesCreditTwice(ClickAsWritten(ClickAsWritten(t, 6), 7));
  }

  /**
    A single easy-tier game in which the computer is credited twice: from a
    fresh page, the human plays 3 and 5 with the replies taken in turn, then
    clicks 6 and 7 before the reply comes.
   */
  lemma StaleReplyCreditsTwice(s: Page)
    requires Fresh(s) && s.game.difficulty == Easy
    ensures var p1 := ClickAsWritten(s, 3);
            && p1.pending == 1
            && var p3 := ClickAsWritten(FireAsWritten(p1, 0), 5);
            && p3.pending == 1
            && RepliesCreditTwice(ClickAsWritten(ClickAsWritten(FireAsWritten(p3, 0), 6), 7), s.game.scores.cpu)
  {
    OpeningExchanges(s);
    var b0 := s.game.board;
    var t := Page(s.game.(board := Place(Place(Place(Place(b0, 3, X), 0, O), 5, X), 1, O)), 0);
    DoubleClickThenWin(t, b0);
  }

  /**
    A click as intended: ignored while a reply is pending, when the cell is
    taken or when the game is over; otherwise the human's move, with one
    reply scheduled when the game goes on.
   */
  function Click(s: Page, i: Index): (r: Page)
    ensures s.pending > 0 || s.game.board[i] != Empty || !s.game.active ==> r == s
    ensures s.pending == 0 && s.game.board[i] == Empty && s.game.active ==>
              && r.game.board == Place(s.game.board, i, X)
              && r.game.difficulty == s.game.difficulty
              && (r.pending == 1 <==> r.game.active)
              && r.pending <= 1
  {
    if s.pending > 0 || s.game.board[i] != Empty || !s.game.active then s
    else
      var g := MakeMove(s.game, i, X);
      assert g.board == Place(s.game.board, i, X);
      Page(g, if g.active then 1 else 0)
  }

  /**
    A scheduled reply as intended: nothing happens on a game that is already
    over; otherwise the computer takes its turn.
   */
  function Fire(s: Page, roll: nat): (r: Page)
    requires s.pending > 0
    ensures r.pending == s.pending - 1
    ensures !s.game.active ==> r.game == s.game
    ensures forall j: Index :: r.game.board[j] != s.game.board[j] ==> s.game.board[j] == Empty && r.game.board[j] == Mark(O)
    ensures forall j: Index, k: Index :: r.game.board[j] != s.game.board[j] && r.game.board[k] != s.game.board[k] ==> j == k
    ensures r.game.scores.user == s.game.scores.user && r.game.difficulty == s.game.difficulty
  {
    if s.game.active then Page(CpuTurn(s.game, roll), s.pending - 1)
    else Page(s.game, s.pending - 1)
  }

  /** Restart as intended: a fresh board, and any reply still scheduled is cancelled. */
  function Restart(s: Page): (r: Page)
    ensures Fresh(r)
    ensures r.game.scores == s.game.scores && r.game.difficulty == s.game.difficulty
  {
    Page(ResetGame(s.game), 0)
  }

  /** A change of tier as intended: a fresh board under the new tier, any scheduled reply cancelled. */
  function ChangeTier(s: Page, d: Difficulty): (r: Page)
    ensures Fresh(r)
    ensures r.game.scores == s.game.scores && r.game.difficulty == d
  {
    Page(SetDifficulty(s.game, d), 0)
  }

  /**
    The states the intended page keeps to: at most one reply pending; with
    none pending the game is consistent, and with one pending the game is
    on, the board undecided, and the human a move ahead.
   */
  ghost predicate Settled(s: Page) {
    && s.pending <= 1
    && (s.pending == 0 ==> Consistent(s.game))
    && (s.pending == 1 ==>
          && s.game.active && !Terminal(s.game.board)
          && Count(s.game.board, Mark(X)) == Count(s.game.board, Mark(O)) + 1)
  }

  /** Page load, restart and a change of tier all give a settled page. */
  lemma RestartSettles(s: Page, d: Difficulty)
    ensures Settled(Page(Initial, 0))
    ensures Settled(Restart(s)) && Settled(ChangeTier(s, d))
  {
    ResetIsConsistent(s.game, d);
  }

  /**
    A click keeps the page settled, and it moves a counter only when the
    human's move decides the game, crediting the winner once.
   */
  lemma ClickKeepsSettled(s: Page, i: Index)
    requires Settled(s)
    ensures Settled(Click(s, i))
    ensures var r := Click(s, i);
            r.game.scores == if r.pending == 0 && r != s then Credit(s.game.scores, StatusOf(r.game.board)) else s.game.scores
  {
    if s.pending == 0 && s.game.board[i] == Empty && s.game.active {
      HumanMoveOutcome(s.game, i);
    }
  }

  /**
    The pending reply keeps the page settled: it never leaves the human a
    win, and it moves a counter only by crediting a win of the computer once.
   */
  lemma FireKeepsSettled(s: Page, roll: nat)
    requires Settled(s) && s.pending > 0
    ensures Settled(Fire(s, roll))
    ensures var r := Fire(s, roll);
            && StatusOf(r.game.board) != HumanWon
            && r.game.scores == Credit(s.game.scores, StatusOf(r.game.board))
  {
    CpuReplyConsistent(s.game, roll);
  }

  /**
    One click followed by its reply is the controller's `HandleCellClick`:
    when the click schedules no reply it already is that click, and when it
    schedules one, running it gives the same game.
   */
  lemma ClickThenFireIsHandleCellClick(s: Page, i: Index, roll: nat)
    requires s.pending == 0
    ensures var p := Click(s, i);
            && (p.pending == 0 ==> p.game == HandleCellClick(s.game, i, roll))
            && (p.pending == 1 ==> Fire(p, roll).game == HandleCellClick(s.game, i, roll))
  {
  }
}

=== FILE: game.dfy ===
/**
  The game controller: the board, whether the game still accepts moves, the
  difficulty tier and the two win counters, and the transitions the page
  drives (a click on a cell, the computer's reply, restart, change of tier).
 */
module Game {

  import opened Wrappers
  import opened Board
  import opened Win
  import opened Immediate
  import opened Search

  datatype Difficulty = Easy | Medium | Hard

  /** Win counters of the human ("user") and the computer ("cpu"). */
  datatype Scores = Scores(user: nat, cpu: nat)

  datatype Game = Game(board: Board, active: bool, difficulty: Difficulty, scores: Scores)

  /** The state at page load: empty board, accepting moves, hard tier, no wins. */
  const Initial: Game := Game(EmptyBoard, true, Hard, Scores(0, 0))

  /** The outcome of a board, recomputed from the board alone. */
  datatype Status = InProgress | HumanWon | ComputerWon | Draw

  function StatusOf(b: Board): (r: Status) {
    if CheckWinSimple(b, X) then HumanWon
    else if CheckWinSimple(b, O) then ComputerWon
    else if Full(b) then Draw
    else InProgress
  }

  /** The counter that a win of `p` increments. */
  function Wins(s: Scores, p: Player): (r: nat) {
    if p == X then s.user else s.cpu
  }

  /**
    After `p` has moved: a line of `p` ends the game and credits `p` once; a
    full board without that line ends the game as a tie; otherwise the
    state is left alone.
   */
  function CheckWinner(g: Game, p: Player): (r: Game)
    ensures r.board == g.board && r.difficulty == g.difficulty
    ensures CheckWinSimple(g.board, p) ==>
              && !r.active
              && Wins(r.scores, p) == Wins(g.scores, p) + 1
              && Wins(r.scores, Other(p)) == Wins(g.scores, Other(p))
    ensures !CheckWinSimple(g.board, p) && Full(g.board) ==> !r.active && r.scores == g.scores
    ensures !CheckWinSimple(g.board, p) && !Full(g.board) ==> r == g
  {
    if CheckWinSimple(g.board, p) then
      var scores := if p == X then g.scores.(user := g.scores.user + 1) else g.scores.(cpu := g.scores.cpu + 1);
      g.(scores := scores, active := false)
    else if Full(g.board) then
      g.(active := false)
    else
      g
  }

  /**
    Writes `p`'s mark at `i` (whatever was there; callers only pass empty
    cells) and then applies `CheckWinner`.
   */
  function MakeMove(g: Game, i: Index, p: Player): (r: Game)
    ensures r.board[i] == Mark(p)
    ensures forall j: Index :: j != i ==> r.board[j] == g.board[j]
    ensures r.difficulty == g.difficulty
    ensures r.active <==> g.active && !CheckWinSimple(r.board, p) && !Full(r.board)
    ensures Wins(r.scores, Other(p)) == Wins(g.scores, Other(p))
    ensures Wins(r.scores, p) == Wins(g.scores, p) + (if CheckWinSimple(r.board, p) then 1 else 0)
  {
    CheckWinner(g.(board := Place(g.board, i, p)), p)
  }

  /**
    The easy tier's pick, and the fallback of the medium tier: the available
    cell at position `roll` modulo their number, standing for the page's
    random draw.  `None` when no cell is empty.
   */
  function RandomEmpty(b: Board, roll: nat): (r: Option<Index>)
    ensures r.Some? ==> b[r.value] == Empty
    ensures r.None? <==> Full(b)
  {
    var avail := EmptyIndices(b);
    if |avail| == 0 then None else Some(avail[roll % |avail|])
  }

  lemma SmallRemainder(k: nat, n: nat)
    requires k < n
    ensures k % n == k
  {
  }

  /** Every empty cell is the random pick for some draw. */
  lemma RandomEmptyReachesEvery(b: Board, cell: Index)
    requires b[cell] == Empty
    ensures exists roll: nat :: RandomEmpty(b, roll) == Some(cell)
  {
    var avail := EmptyIndices(b);
    assert cell in avail;
    var k :| 0 <= k < |avail| && avail[k] == cell;
    SmallRemainder(k, |avail|);
    assert RandomEmpty(b, k) == Some(cell);
  }

  /**
    The medium tier exactly as the page combines its two lookups: the
    computer's winning cell is taken only when it is truthy, so a win at
    cell 0 falls through to the human's threat, and only then to a random
    empty cell.
   */
  function MediumMoveAsWritten(b: Board, roll: nat): (r: Option<Index>)
    ensures r.Some? ==> b[r.value] == Empty
    ensures r.None? <==> Full(b)
    ensures var o := FindBestImmediateMove(b, O); o.Some? && o.value != 0 ==> r == o
    ensures var o := FindBestImmediateMove(b, O); var x := FindBestImmediateMove(b, X);
            (o.None? || o == Some(0)) && x.Some? ==> r == x && CheckWinSimple(Place(b, r.value, X), X)
    ensures var o := FindBestImmediateMove(b, O); var x := FindBestImmediateMove(b, X);
            (o.None? || o == Some(0)) && x.None? ==> r == RandomEmpty(b, roll)
  {
    var o := FindBestImmediateMove(b, O);
    var choice := if o.Some? && o.value != 0 then o else FindBestImmediateMove(b, X);
    if choice.Some? then
      ImmediateMoveWins(b, if o.Some? && o.value != 0 then O else X);
      choice
    else
      RandomEmpty(b, roll)
  }

  /**
    The medium tier as intended: win if the computer can, otherwise block the
    human's immediate win, otherwise play a random empty cell.
   */
  function MediumMove(b: Board, roll: nat): (r: Option<Index>)
    ensures r.Some? ==> b[r.value] == Empty
    ensures r.None? <==> Full(b)
    ensures FindBestImmediateMove(b, O).Some? ==>
              r == FindBestImmediateMove(b, O) && CheckWinSimple(Place(b, r.value, O), O)
    ensures FindBestImmediateMove(b, O).None? && FindBestImmediateMove(b, X).Some? ==>
              r == FindBestImmediateMove(b, X) && CheckWinSimple(Place(b, r.value, X), X)
  {
    var o := FindBestImmediateMove(b, O);
    if o.Some? then
      ImmediateMoveWins(b, O);
      o
    else
      var x := FindBestImmediateMove(b, X);
      if x.Some? then
        ImmediateMoveWins(b, X);
        x
      else
        RandomEmpty(b, roll)
  }

  /** The page's combination differs from the intended one only when the computer's win is at cell 0. */
  lemma MediumAsWrittenDiffersOnlyAtZero(b: Board, roll: nat)
    ensures MediumMoveAsWritten(b, roll) != MediumMove(b, roll) ==> FindBestImmediateMove(b, O) == Some(0)
  {
  }

  /**
    A board where the computer can win at cell 0 while the human threatens
    cell 5: the page's combination blocks at 5 and misses the win.
   */
  lemma MediumAsWrittenMissesWin(roll: nat)
    ensures var b: Board := [Empty, Mark(O), Mark(O), Mark(X), Mark(X), Empty, Empty, Empty, Mark(X)];
            && MediumMoveAsWritten(b, roll) == Some(5)
            && !CheckWinSimple(Place(b, 5, O), O)
            && MediumMove(b, roll) == Some(0)
            && CheckWinSimple(Place(b, 0, O), O)
  {
    var b: Board := [Empty, Mark(O), Mark(O), Mark(X), Mark(X), Empty, Empty, Empty, Mark(X)];
    CounterexampleLookups();
    BlockAtFiveDoesNotWin();
    assert Filled(Place(b, 0, O), WinPatterns[0], O);
  }

  /** On the board above, the computer's lookup finds cell 0 and the human's finds cell 5. */
  lemma CounterexampleLookups()
    ensures var b: Board := [Empty, Mark(O), Mark(O), Mark(X), Mark(X), Empty, Empty, Empty, Mark(X)];
            && FindBestImmediateMove(b, O) == Some(0)
            && FindBestImmediateMove(b, X) == Some(5)
  {
    var b: Board := [Empty, Mark(O), Mark(O), Mark(X), Mark(X), Empty, Empty, Empty, Mark(X)];
    assert Completes(b, WinPatterns[0], O, 0);
    assert Completes(b, WinPatterns[1], X, 5);
    assert !Completes(b, WinPatterns[0], X, 0);
  }

  /** On the board above, an "O" at cell 5 completes no line for the computer. */
  lemma BlockAtFiveDoesNotWin()
    ensures !CheckWinSimple(Place([Empty, Mark(O), Mark(O), Mark(X), Mark(X), Empty, Empty, Empty, Mark(X)], 5, O), O)
  {
    var b: Board := [Empty, Mark(O), Mark(O), Mark(X), Mark(X), Empty, Empty, Empty, Mark(X)];
    var b5 := Place(b, 5, O);
    assert b5[0] == Empty && b5[4] == Mark(X) && b5[8] == Mark(X);
    DiagonalMeetsEveryLine(b5, O);
  }

  /** The cell the computer picks for its tier; `None` when the page would not move. */
  function CpuMove(b: Board, d: Difficulty, roll: nat): (r: Option<Index>)
    ensures r.Some? ==> b[r.value] == Empty
    ensures r.None? <==> Full(b) || (d == Hard && (CheckWinSimple(b, X) || CheckWinSimple(b, O)))
    ensures d == Easy ==> r == RandomEmpty(b, roll)
    ensures d == Medium ==> r == MediumMoveAsWritten(b, roll)
    ensures d == Hard ==> r == Minimax(b, O).index
  {
    match d
    case Easy => RandomEmpty(b, roll)
    case Medium => MediumMoveAsWritten(b, roll)
    case Hard => Minimax(b, O).index
  }

  /** The computer's turn: pick a cell for the tier and, if there is one, play "O" there. */
  function CpuTurn(g: Game, roll: nat): (r: Game)
    ensures r.difficulty == g.difficulty
    ensures !Terminal(g.board) ==>
              exists cell: Index :: g.board[cell] == Empty && r.board == Place(g.board, cell, O)
    ensures g.difficulty == Hard && !Terminal(g.board) ==>
              r.board == Place(g.board, Minimax(g.board, O).index.value, O)
    ensures forall j: Index :: r.board[j] != g.board[j] ==> g.board[j] == Empty && r.board[j] == Mark(O)
    ensures forall j: Index, k: Index :: r.board[j] != g.board[j] && r.board[k] != g.board[k] ==> j == k
    ensures Wins(r.scores, X) == Wins(g.scores, X)
    ensures Wins(r.scores, O) == Wins(g.scores, O) + (if r.board != g.board && CheckWinSimple(r.board, O) then 1 else 0)
    ensures var m := CpuMove(g.board, g.difficulty, roll);
            && (m.None? ==> r == g)
            && (m.Some? ==> r.board == Place(g.board, m.value, O))
            && (m.Some? ==> (r.active <==> g.active && !CheckWinSimple(r.board, O) && !Full(r.board)))
  {
    match CpuMove(g.board, g.difficulty, roll)
    case Some(cell) => MakeMove(g, cell, O)
    case None => g
  }

  /**
    A click on cell `i`: ignored when the cell is taken or the game is over;
    otherwise the human's "X" is played and, if the game goes on, the
    computer replies at once; the page's timer is modelled in `Delay`.
   */
  function HandleCellClick(g: Game, i: Index, roll: nat): (r: Game)
    ensures g.board[i] != Empty || !g.active ==> r == g
    ensures g.board[i] == Empty && g.active ==> r.board[i] == Mark(X)
    ensures forall j: Index :: g.board[j] != Empty ==> r.board[j] == g.board[j]
    ensures forall j: Index :: j != i && r.board[j] != g.board[j] ==> g.board[j] == Empty && r.board[j] == Mark(O)
    ensures forall j: Index, k: Index :: j != i && k != i && r.board[j] != g.board[j] && r.board[k] != g.board[k] ==> j == k
    ensures g.board[i] == Empty && g.active && !Terminal(Place(g.board, i, X)) ==>
              exists c: Index :: c != i && g.board[c] == Empty && r.board == Place(Place(g.board, i, X), c, O)
    ensures r.difficulty == g.difficulty
  {
    if g.board[i] != Empty || !g.active then g
    else
      var h := MakeMove(g, i, X);
      if h.active then
        assert h.board == Place(g.board, i, X);
        var r := CpuTurn(h, roll);
        ReplyFrame(g.board, h.board, r.board, i);
        r
      else h
  }

  /**
    After the human's mark at `i` and at most one further "O" on an empty
    cell, every earlier mark is still in place and only one cell besides `i`
    has changed.
   */
  lemma ReplyFrame(b: Board, h: Board, r: Board, i: Index)
    requires b[i] == Empty && h[i] == Mark(X)
    requires forall j: Index :: j != i ==> h[j] == b[j]
    requires forall j: Index :: r[j] != h[j] ==> h[j] == Empty && r[j] == Mark(O)
    requires forall j: Index, k: Index :: r[j] != h[j] && r[k] != h[k] ==> j == k
    ensures r[i] == Mark(X)
    ensures forall j: Index :: b[j] != Empty ==> r[j] == b[j]
    ensures forall j: Index :: j != i && r[j] != b[j] ==> b[j] == Empty && r[j] == Mark(O)
    ensures forall j: Index, k: Index :: j != i && k != i && r[j] != b[j] && r[k] != b[k] ==> j == k
  {
  }

  /** Restart: an empty board that accepts moves; tier and counters are kept. */
  function ResetGame(g: Game): (r: Game)
    ensures forall i: Index :: r.board[i] == Empty
    ensures r.active
    ensures r.scores == g.scores && r.difficulty == g.difficulty
  {
    g.(board := EmptyBoard, active := true)
  }

  /** Selecting a tier always restarts the game under the new tier. */
  function SetDifficulty(g: Game, d: Difficulty): (r: Game)
    ensures r.difficulty == d
    ensures forall i: Index :: r.board[i] == Empty
    ensures r.active
    ensures r.scores == g.scores
  {
    ResetGame(g.(difficulty := d))
  }

  /**
    What every state reached from page load satisfies: the game accepts moves
    exactly while the board is undecided, the human has made as many moves
    as the computer whenever it is the human's turn, and at most one more
    when the game ended on the human's move.
   */
  ghost predicate Consistent(g: Game) {
    var xs := Count(g.board, Mark(X));
    var os := Count(g.board, Mark(O));
    && (g.active <==> StatusOf(g.board) == InProgress)
    && (g.active ==> xs == os)
    && (xs == os || xs == os + 1)
  }

  /** The empty board is undecided and holds no marks. */
  lemma EmptyBoardConsistent(g: Game)
    requires g.board == EmptyBoard && g.active
    ensures Consistent(g)
  {
    assert !CheckWinSimple(EmptyBoard, X) by {
      forall j | 0 <= j < |WinPatterns| ensures !Filled(EmptyBoard, WinPatterns[j], X) {
        assert EmptyBoard[WinPatterns[j][0]] == Empty;
      }
    }
    assert !CheckWinSimple(EmptyBoard, O) by {
      forall j | 0 <= j < |WinPatterns| ensures !Filled(EmptyBoard, WinPatterns[j], O) {
        assert EmptyBoard[WinPatterns[j][0]] == Empty;
      }
    }
    assert EmptyBoard[0] == Empty;
    assert Mark(X) !in EmptyBoard && Mark(O) !in EmptyBoard;
  }

  /** Page load, restart and a change of tier all produce consistent states. */
  lemma ResetIsConsistent(g: Game, d: Difficulty)
    ensures Consistent(Initial)
    ensures Consistent(ResetGame(g))
    ensures Consistent(SetDifficulty(g, d))
  {
    EmptyBoardConsistent(Initial);
    EmptyBoardConsistent(ResetGame(g));
    EmptyBoardConsistent(SetDifficulty(g, d));
  }

  /** The counters after a move that left the board with status `st`: a win credits its winner once. */
  function Credit(s: Scores, st: Status): (r: Scores) {
    match st
    case HumanWon => s.(user := s.user + 1)
    case ComputerWon => s.(cpu := s.cpu + 1)
    case _ => s
  }

  /** The computer's mark on an empty cell of an undecided board, one move behind, decides it consistently or hands back a consistent game. */
  lemma ComputerMoveOutcome(h: Game, cell: Index)
    requires h.active && !Terminal(h.board) && h.board[cell] == Empty
    requires Count(h.board, Mark(X)) == Count(h.board, Mark(O)) + 1
    ensures var r := MakeMove(h, cell, O);
            && Consistent(r)
            && StatusOf(r.board) != HumanWon
            && r.scores == Credit(h.scores, StatusOf(r.board))
  {
    var b2 := Place(h.board, cell, O);
    assert Count(b2, Mark(O)) == Count(h.board, Mark(O)) + 1;
    assert Count(b2, Mark(X)) == Count(h.board, Mark(X));
    PlaceKeepsOtherWin(h.board, cell, O, X);
    var r := MakeMove(h, cell, O);
    assert r == CheckWinner(h.(board := b2), O);
    if CheckWinSimple(b2, O) {
      assert StatusOf(b2) == ComputerWon && !r.active;
    } else if Full(b2) {
      assert StatusOf(b2) == Draw && !r.active;
    } else {
      assert StatusOf(b2) == InProgress && r == h.(board := b2);
    }
  }

  /** The computer's reply on an undecided board keeps the state consistent and credits only the computer. */
  lemma CpuReplyConsistent(h: Game, roll: nat)
    requires h.active && !Terminal(h.board)
    requires Count(h.board, Mark(X)) == Count(h.board, Mark(O)) + 1
    ensures var r := CpuTurn(h, roll);
            && Consistent(r)
            && StatusOf(r.board) != HumanWon
            && r.scores == Credit(h.scores, StatusOf(r.board))
  {
    var cell := CpuMove(h.board, h.difficulty, roll).value;
    assert CpuTurn(h, roll) == MakeMove(h, cell, O);
    ComputerMoveOutcome(h, cell);
  }

  /** The human's move on an undecided board either decides it consistently or leaves the computer to move. */
  lemma HumanMoveOutcome(g: Game, i: Index)
    requires Consistent(g) && g.active && g.board[i] == Empty
    ensures var h := MakeMove(g, i, X);
            && (h.active ==> !Terminal(h.board) && h.scores == g.scores)
            && Count(h.board, Mark(X)) == Count(h.board, Mark(O)) + 1
            && (!h.active ==> Consistent(h) && h.scores == Credit(g.scores, StatusOf(h.board)))
  {
    var b1 := Place(g.board, i, X);
    assert Count(b1, Mark(X)) == Count(g.board, Mark(X)) + 1;
    assert Count(b1, Mark(O)) == Count(g.board, Mark(O));
    PlaceKeepsOtherWin(g.board, i, X, O);
    var h := MakeMove(g, i, X);
    assert h == CheckWinner(g.(board := b1), X);
    if CheckWinSimple(b1, X) {
      assert StatusOf(b1) == HumanWon && !h.active;
    } else if Full(b1) {
      assert StatusOf(b1) == Draw && !h.active;
    } else {
      assert !Terminal(b1) && h == g.(board := b1);
    }
  }

  /** A click keeps every consistent state consistent. */
  lemma ClickKeepsConsistent(g: Game, i: Index, roll: nat)
    requires Consistent(g)
    ensures Consistent(HandleCellClick(g, i, roll))
  {
    if g.board[i] == Empty && g.active {
      HumanMoveOutcome(g, i);
      var h := MakeMove(g, i, X);
      if h.active {
        CpuReplyConsistent(h, roll);
      }
    }
  }

  /**
    From a consistent state, a click moves a counter only when it decides the
    game, and then only the winner's counter, by exactly one.
   */
  lemma ClickCreditsWinnerOnce(g: Game, i: Index, roll: nat)
    requires Consistent(g)
    ensures var r := HandleCellClick(g, i, roll);
            && (g.active ==> r.scores == Credit(g.scores, StatusOf(r.board)))
            && (!g.active ==> r.scores == g.scores)
  {
    if g.board[i] == Empty && g.active {
      HumanMoveOutcome(g, i);
      var h := MakeMove(g, i, X);
      if h.active {
        CpuReplyConsistent(h, roll);
      }
    }
  }

}

=== FILE: immediate.dfy ===
/**
  The medium tier's one-move lookahead: find a triple where a player already
  holds two cells and the third is empty, so that one move completes it.
 */
module Immediate {

  import opened Wrappers
  import opened Board
  import opened Win

  /** The position of the first occurrence of `c` in `s`. */
  function IndexOf(s: seq<Cell>, c: Cell): (k: nat)
    requires c in s
    ensures k < |s| && s[k] == c
    ensures forall j :: 0 <= j < k ==> s[j] != c
  {
    if s[0] == c then 0 else 1 + IndexOf(s[1..], c)
  }

  /**
    `cell` completes `pat` for `p`: it is the one empty cell of the triple and
    the other two hold the mark of `p`.
   */
  predicate Completes(b: Board, pat: Pattern, p: Player, cell: Index) {
    || (cell == pat[0] && b[pat[0]] == Empty && b[pat[1]] == Mark(p) && b[pat[2]] == Mark(p))
    || (cell == pat[1] && b[pat[0]] == Mark(p) && b[pat[1]] == Empty && b[pat[2]] == Mark(p))
    || (cell == pat[2] && b[pat[0]] == Mark(p) && b[pat[1]] == Mark(p) && b[pat[2]] == Empty)
  }

  /**
    The test the game applies to one triple: exactly two of its cells hold
    `p`'s mark and exactly one is empty, and then the answer is the triple's
    position of that empty cell.
   */
  function Opportunity(b: Board, pat: Pattern, p: Player): (r: Option<Index>)
    ensures r.Some? ==> Completes(b, pat, p, r.value)
    ensures r.None? ==> forall cell: Index :: !Completes(b, pat, p, cell)
  {
    var vals := [b[pat[0]], b[pat[1]], b[pat[2]]];
    CountOfThree(vals[0], vals[1], vals[2], Mark(p));
    CountOfThree(vals[0], vals[1], vals[2], Empty);
    if Count(vals, Mark(p)) == 2 && Count(vals, Empty) == 1 then
      Some(pat[IndexOf(vals, Empty)])
    else
      None
  }

  /** No triple at a position in `lo..hi` offers `p` a completing cell. */
  ghost predicate NoneIn(b: Board, p: Player, lo: nat, hi: nat)
    requires hi <= |WinPatterns|
  {
    forall j, cell: Index :: lo <= j < hi ==> !Completes(b, WinPatterns[j], p, cell)
  }

  /** No triple before position `k` offers `p` a completing cell. */
  ghost predicate NoneBefore(b: Board, p: Player, k: nat)
    requires k <= |WinPatterns|
  {
    NoneIn(b, p, 0, k)
  }

  /** A range of triples offers nothing exactly when its first triple and the rest offer nothing. */
  lemma NoneInSplit(b: Board, p: Player, k: nat, hi: nat)
    requires k < hi <= |WinPatterns|
    ensures NoneIn(b, p, k, hi) <==>
              (forall cell: Index :: !Completes(b, WinPatterns[k], p, cell)) && NoneIn(b, p, k + 1, hi)
  {
  }

  /** A first completing triple after position `k` stays first when triple `k` offers nothing. */
  lemma FirstFromNext(b: Board, p: Player, k: nat, cell: Index)
    requires k < |WinPatterns|
    requires forall c: Index :: !Completes(b, WinPatterns[k], p, c)
    requires exists j :: k + 1 <= j < |WinPatterns| && Completes(b, WinPatterns[j], p, cell) && NoneIn(b, p, k + 1, j)
    ensures exists j :: k <= j < |WinPatterns| && Completes(b, WinPatterns[j], p, cell) && NoneIn(b, p, k, j)
  {
    var j :| k + 1 <= j < |WinPatterns| && Completes(b, WinPatterns[j], p, cell) && NoneIn(b, p, k + 1, j);
    NoneInSplit(b, p, k, j);
  }

  /** The scan of the triples from position `k` on. */
  function FindFrom(b: Board, p: Player, k: nat): (r: Option<Index>)
    requires k <= |WinPatterns|
    ensures r.None? <==> NoneIn(b, p, k, |WinPatterns|)
    ensures r.Some? ==>
              exists j :: k <= j < |WinPatterns| && Completes(b, WinPatterns[j], p, r.value) && NoneIn(b, p, k, j)
    decreases |WinPatterns| - k
  {
    if k == |WinPatterns| then None
    else
      NoneInSplit(b, p, k, |WinPatterns|);
      match Opportunity(b, WinPatterns[k], p)
      case Some(cell) =>
        assert NoneIn(b, p, k, k);
        Some(cell)
      case None =>
        var r := FindFrom(b, p, k + 1);
        if r.Some? then
          FirstFromNext(b, p, k, r.value);
          r
        else
          r
  }

  /**
    The cell that completes the first triple, in table order, where `p` holds
    two cells and the third is empty; `None` when there is no such triple.
   */
  function FindBestImmediateMove(b: Board, p: Player): (r: Option<Index>)
    ensures r.None? <==> NoneBefore(b, p, |WinPatterns|)
    ensures r.Some? ==>
              exists j :: 0 <= j < |WinPatterns| && Completes(b, WinPatterns[j], p, r.value)
                          && NoneBefore(b, p, j)
  {
    FindFrom(b, p, 0)
  }

  /** A found cell is empty, and marking it wins the game for `p`. */
  lemma ImmediateMoveWins(b: Board, p: Player)
    requires FindBestImmediateMove(b, p).Some?
    ensures b[FindBestImmediateMove(b, p).value] == Empty
    ensures CheckWinSimple(Place(b, FindBestImmediateMove(b, p).value, p), p)
  {
    var cell := FindBestImmediateMove(b, p).value;
    var j :| 0 <= j < |WinPatterns| && Completes(b, WinPatterns[j], p, cell) && NoneBefore(b, p, j);
    assert Filled(Place(b, cell, p), WinPatterns[j], p);
  }

  /**
    When nothing is found, no single mark of `p` on an empty cell produces a
    win that `p` did not already have.
   */
  lemma NoImmediateMoveNoWin(b: Board, p: Player, cell: Index)
    ensures FindBestImmediateMove(b, p).None? && b[cell] == Empty && CheckWinSimple(Place(b, cell, p), p)
            ==> CheckWinSimple(b, p)
  {
    var r := Place(b, cell, p);
    if FindBestImmediateMove(b, p).None? && b[cell] == Empty && CheckWinSimple(r, p) {
      var j :| 0 <= j < |WinPatterns| && Filled(r, WinPatterns[j], p);
      var pat := WinPatterns[j];
      PatternCellsDistinct(j);
      assert !Completes(b, pat, p, cell);
      assert cell != pat[0] && cell != pat[1] && cell != pat[2];
      assert Filled(b, pat, p);
    }
  }

}

=== FILE: search.dfy ===
/**
  The hard tier: exhaustive minimax over the remaining game tree, without
  pruning and without depth adjustment.  Scores are from the computer's
  side: -10 when the human ("X") has won, +10 when the computer ("O") has
  won, 0 for a full board without a winner.
 */
module Search {

  import opened Wrappers
  import opened Board
  import opened Win

  /**
    The result of one search call.  Terminal boards carry only a score; an
    inner node also names the chosen cell.
   */
  datatype Move = Move(index: Option<Index>, score: int)

  /** The starting value of the best score, beyond any real score. */
  const Sentinel: int := 10000

  /** `s` is strictly better than `t` for the side that maximizes or minimizes. */
  predicate Improves(maximizing: bool, s: int, t: int) {
    if maximizing then s > t else s < t
  }

  /** The search's starting best score: the worst possible value for the side to move. */
  function InitialBest(maximizing: bool): (r: int) {
    if maximizing then -Sentinel else Sentinel
  }

  /** All scores lie strictly inside the sentinels. */
  predicate Bounded(scores: seq<int>) {
    forall k :: 0 <= k < |scores| ==> -Sentinel < scores[k] < Sentinel
  }

  /**
    The selection loop over the candidate scores from position `i` on,
    carrying the best score so far and the position where it was first met.
    A later score replaces the best one only when it is strictly better.
   */
  function Scan(scores: seq<int>, maximizing: bool, i: nat, best: int, bestMove: Option<nat>): (r: Option<nat>)
    requires i <= |scores|
    decreases |scores| - i
  {
    if i == |scores| then bestMove
    else if Improves(maximizing, scores[i], best) then Scan(scores, maximizing, i + 1, scores[i], Some(i))
    else Scan(scores, maximizing, i + 1, best, bestMove)
  }

  /** What holds of the selection loop's state after it has looked at `scores[..i]`. */
  ghost predicate ScanState(scores: seq<int>, maximizing: bool, i: nat, best: int, bestMove: Option<nat>)
    requires i <= |scores|
  {
    && (bestMove.None? ==> i == 0 && best == InitialBest(maximizing))
    && (bestMove.Some? ==>
          && bestMove.value < i
          && best == scores[bestMove.value]
          && (forall k :: 0 <= k < i ==> !Improves(maximizing, scores[k], best))
          && (forall k :: 0 <= k < bestMove.value ==> Improves(maximizing, best, scores[k])))
  }

  /**
    The selection loop finishes on the first position of an optimal score:
    no score beats it, and every earlier score is strictly worse.
   */
  lemma {:induction false} ScanFindsFirstBest(scores: seq<int>, maximizing: bool, i: nat, best: int, bestMove: Option<nat>)
    requires i <= |scores| && 0 < |scores|
    requires Bounded(scores)
    requires ScanState(scores, maximizing, i, best, bestMove)
    ensures Scan(scores, maximizing, i, best, bestMove).Some?
    ensures var r := Scan(scores, maximizing, i, best, bestMove).value;
            && r < |scores|
            && (forall k :: 0 <= k < |scores| ==> !Improves(maximizing, scores[k], scores[r]))
            && (forall k :: 0 <= k < r ==> Improves(maximizing, scores[r], scores[k]))
    decreases |scores| - i
  {
    if i < |scores| {
      if Improves(maximizing, scores[i], best) {
        if bestMove.Some? {
          forall k | 0 <= k < bestMove.value
            ensures Improves(maximizing, scores[i], scores[k])
          {
            assert Improves(maximizing, best, scores[k]);
          }
          forall k | bestMove.value <= k < i
            ensures Improves(maximizing, scores[i], scores[k])
          {
            assert !Improves(maximizing, scores[k], best);
          }
        }
        ScanFindsFirstBest(scores, maximizing, i + 1, scores[i], Some(i));
      } else {
        ScanFindsFirstBest(scores, maximizing, i + 1, best, bestMove);
      }
    }
  }

  /**
    The position the search picks among its candidates: the first one whose
    score is optimal for the side to move.
   */
  function FirstBest(scores: seq<int>, maximizing: bool): (r: nat)
    requires 0 < |scores| && Bounded(scores)
    ensures r < |scores|
    ensures forall k :: 0 <= k < |scores| ==> !Improves(maximizing, scores[k], scores[r])
    ensures forall k :: 0 <= k < r ==> Improves(maximizing, scores[r], scores[k])
  {
    ScanFindsFirstBest(scores, maximizing, 0, InitialBest(maximizing), None);
    Scan(scores, maximizing, 0, InitialBest(maximizing), None).value
  }

  /** Only one position is both unbeaten and strictly better than every earlier one. */
  lemma FirstBestIsUnique(scores: seq<int>, maximizing: bool, k: nat)
    requires 0 < |scores| && Bounded(scores) && k < |scores|
    requires forall j :: 0 <= j < |scores| ==> !Improves(maximizing, scores[j], scores[k])
    requires forall j :: 0 <= j < k ==> Improves(maximizing, scores[k], scores[j])
    ensures k == FirstBest(scores, maximizing)
  {
    var f := FirstBest(scores, maximizing);
    assert !Improves(maximizing, scores[f], scores[k]);
    assert !Improves(maximizing, scores[k], scores[f]);
  }

  /** The side that maximizes the score: the computer. */
  predicate Maximizing(player: Player) {
    player == O
  }

  /** A board on which the search stops: a win for either side, or no empty cell. */
  predicate Terminal(b: Board) {
    CheckWinSimple(b, X) || CheckWinSimple(b, O) || Full(b)
  }

  /** The score of the position after `player` marks the empty cell `i`. */
  function ChildScore(b: Board, i: Index, player: Player): (r: int)
    requires b[i] == Empty
    ensures r == -10 || r == 0 || r == 10
    decreases Count(b, Empty), 0
  {
    Minimax(Place(b, i, player), Other(player)).score
  }

  /**
    Minimax with `player` to move.  The human's win is tested before the
    computer's, then a full board; otherwise every empty cell is tried in
    ascending order and the first optimal one is chosen.
   */
  function Minimax(b: Board, player: Player): (m: Move)
    ensures m.score == -10 || m.score == 0 || m.score == 10
    ensures CheckWinSimple(b, X) ==> m == Move(None, -10)
    ensures !CheckWinSimple(b, X) && CheckWinSimple(b, O) ==> m == Move(None, 10)
    ensures !CheckWinSimple(b, X) && !CheckWinSimple(b, O) && Full(b) ==> m == Move(None, 0)
    ensures m.index.Some? <==> !Terminal(b)
    ensures m.index.Some? ==> b[m.index.value] == Empty
    decreases Count(b, Empty), 2
  {
    if CheckWinSimple(b, X) then Move(None, -10)
    else if CheckWinSimple(b, O) then Move(None, 10)
    else
      var avail := EmptyIndices(b);
      if |avail| == 0 then Move(None, 0)
      else
        var scores := ChildScores(b, avail, player);
        var k := FirstBest(scores, Maximizing(player));
        Move(Some(avail[k]), scores[k])
  }

  /** The scores of the positions reached by marking each available cell in turn. */
  function ChildScores(b: Board, avail: seq<Index>, player: Player): (scores: seq<int>)
    requires forall j :: 0 <= j < |avail| ==> b[avail[j]] == Empty
    ensures |scores| == |avail|
    ensures forall j :: 0 <= j < |avail| ==> scores[j] == ChildScore(b, avail[j], player)
    ensures forall j :: 0 <= j < |avail| ==> scores[j] == -10 || scores[j] == 0 || scores[j] == 10
    ensures Bounded(scores)
    decreases Count(b, Empty), 1
  {
    seq(|avail|, j requires 0 <= j < |avail| => ChildScore(b, avail[j], player))
  }

  /**
    On a board that is not terminal the search returns an empty cell whose
    score is optimal for `player` over all empty cells (maximal for the
    computer, minimal for the human), and every empty cell with a lower index
    is strictly worse: ties go to the lowest index.
   */
  lemma MinimaxPicksFirstOptimal(b: Board, player: Player)
    requires !Terminal(b)
    ensures var m := Minimax(b, player);
            && m.index.Some?
            && b[m.index.value] == Empty
            && m.score == ChildScore(b, m.index.value, player)
            && (forall i: Index :: b[i] == Empty ==>
                  !Improves(Maximizing(player), ChildScore(b, i, player), m.score))
            && (forall i: Index :: i < m.index.value && b[i] == Empty ==>
                  Improves(Maximizing(player), m.score, ChildScore(b, i, player)))
  {
    var avail := EmptyIndices(b);
    var scores := ChildScores(b, avail, player);
    var k := FirstBest(scores, Maximizing(player));
    MinimaxAtInnerNode(b, player);
    forall i: Index | b[i] == Empty
      ensures !Improves(Maximizing(player), ChildScore(b, i, player), scores[k])
      ensures i < avail[k] ==> Improves(Maximizing(player), scores[k], ChildScore(b, i, player))
    {
      assert i in avail;
      var j :| 0 <= j < |avail| && avail[j] == i;
      assert scores[j] == ChildScore(b, i, player);
      EarlierCellIsEarlierCandidate(avail, j, k);
    }
  }

  /** In an ascending list of cells, a smaller cell sits at an earlier position. */
  lemma EarlierCellIsEarlierCandidate(avail: seq<Index>, j: nat, k: nat)
    requires j < |avail| && k < |avail|
    requires forall t, t' :: 0 <= t < t' < |avail| ==> avail[t] < avail[t']
    ensures avail[j] < avail[k] ==> j < k
  {
    if k < j {
      assert avail[k] < avail[j];
    }
  }

  /** At an inner node the search returns the first best candidate of the available cells. */
  lemma MinimaxAtInnerNode(b: Board, player: Player)
    requires !Terminal(b)
    ensures var avail := EmptyIndices(b);
            var scores := ChildScores(b, avail, player);
            && 0 < |avail|
            && Minimax(b, player) == Move(Some(avail[FirstBest(scores, Maximizing(player))]),
                                          scores[FirstBest(scores, Maximizing(player))])
  {
  }

  /**
    The two selection loops of the search (one per side): walk the candidate
    scores, replacing the best one only on a strictly better score.
   */
  method SelectBest(scores: seq<int>, maximizing: bool) returns (k: nat)
    requires 0 < |scores| && Bounded(scores)
    ensures k < |scores|
    ensures forall j :: 0 <= j < |scores| ==> !Improves(maximizing, scores[j], scores[k])
    ensures forall j :: 0 <= j < k ==> Improves(maximizing, scores[k], scores[j])
  {
    var best := InitialBest(maximizing);
    var bestMove: Option<nat> := None;
    var i := 0;
    while i < |scores|
      invariant 0 <= i <= |scores|
      invariant ScanState(scores, maximizing, i, best, bestMove)
    {
      if Improves(maximizing, scores[i], best) {
        best := scores[i];
        bestMove := Some(i);
      }
      i := i + 1;
    }
    k := bestMove.value;
  }

  /**
    The search as the game runs it: on a mutable board, each trial mark is
    written, searched below and erased again before the next candidate.
    The board is left exactly as it was found, and the result is the one
    the pure search computes.
   */
  method MinimaxInPlace(a: array<Cell>, player: Player) returns (m: Move)
    requires a.Length == 9
    modifies a
    ensures a[..] == old(a[..])
    ensures m == Minimax(old(a[..]), player)
    decreases Count(a[..], Empty), 2
  {
    var b: Board := a[..];
    if CheckWinSimple(b, X) {
      return Move(None, -10);
    }
    if CheckWinSimple(b, O) {
      return Move(None, 10);
    }
    var avail := EmptyIndices(b);
    if |avail| == 0 {
      return Move(None, 0);
    }
    var scores := TryAll(a, b, avail, player);
    var k := SelectBest(scores, Maximizing(player));
    FirstBestIsUnique(scores, Maximizing(player), k);
    MinimaxAtInnerNode(b, player);
    m := Move(Some(avail[k]), scores[k]);
  }

  /**
    The trial loop of the in-place search: for each available cell in turn,
    score the position after marking it.
   */
  method TryAll(a: array<Cell>, ghost b: Board, avail: seq<Index>, player: Player) returns (scores: seq<int>)
    requires a.Length == 9 && a[..] == b
    requires forall j :: 0 <= j < |avail| ==> b[avail[j]] == Empty
    modifies a
    ensures a[..] == b
    ensures scores == ChildScores(b, avail, player)
    decreases Count(b, Empty), 1
  {
    scores := [];
    var i := 0;
    while i < |avail|
      invariant 0 <= i <= |avail|
      invariant a[..] == b
      invariant |scores| == i
      invariant forall j :: 0 <= j < i ==> scores[j] == ChildScore(b, avail[j], player)
    {
      assert a[avail[i]] == b[avail[i]];
      var score := TryCell(a, avail[i], player);
      scores := scores + [score];
      i := i + 1;
    }
    ScoresAreChildScores(b, avail, player, scores);
  }

  /** Scores that agree with the child searches cell by cell are the child scores. */
  lemma ScoresAreChildScores(b: Board, avail: seq<Index>, player: Player, scores: seq<int>)
    requires forall j :: 0 <= j < |avail| ==> b[avail[j]] == Empty
    requires |scores| == |avail|
    requires forall j :: 0 <= j < |avail| ==> scores[j] == ChildScore(b, avail[j], player)
    ensures scores == ChildScores(b, avail, player)
  {
  }

  /** One trial: mark `cell`, search the position below, erase the mark. */
  method TryCell(a: array<Cell>, cell: Index, player: Player) returns (score: int)
    requires a.Length == 9
    requires a[cell] == Empty
    modifies a
    ensures a[..] == old(a[..])
    ensures score == ChildScore(old(a[..]), cell, player)
    decreases Count(a[..], Empty), 0
  {
    ghost var b: Board := a[..];
    a[cell] := Mark(player);
    assert a[..] == Place(b, cell, player);
    var child := MinimaxInPlace(a, Other(player));
    score := child.score;
    a[cell] := Empty;
    assert a[..] == b;
  }

}

=== FILE: win.dfy ===
/**
  Win detection: a player has won when all three cells of one of the eight
  fixed triples (three rows, three columns, two diagonals) hold that
  player's mark.
 */
module Win {

  import opened Board

  /** An ordered triple of cell positions. */
  type Pattern = s: seq<Index> | |s| == 3 witness [0, 1, 2]

  /** The eight winning triples, in the order every scan visits them. */
  const WinPatterns: seq<Pattern> :=
    [[0, 1, 2], [3, 4, 5], [6, 7, 8], [0, 3, 6], [1, 4, 7], [2, 5, 8], [0, 4, 8], [2, 4, 6]]

  /** The three cells of every winning triple are distinct. */
  lemma PatternCellsDistinct(j: nat)
    requires j < |WinPatterns|
    ensures WinPatterns[j][0] != WinPatterns[j][1]
    ensures WinPatterns[j][0] != WinPatterns[j][2]
    ensures WinPatterns[j][1] != WinPatterns[j][2]
  {
  }

  /** Every cell of `pat` holds the mark of `p`. */
  predicate Filled(b: Board, pat: Pattern, p: Player) {
    b[pat[0]] == Mark(p) && b[pat[1]] == Mark(p) && b[pat[2]] == Mark(p)
  }

  /** Whether one of the patterns at position `k` or later is filled by `p`. */
  function FilledFrom(b: Board, p: Player, k: nat): (r: bool)
    requires k <= |WinPatterns|
    ensures r <==> exists j :: k <= j < |WinPatterns| && Filled(b, WinPatterns[j], p)
    decreases |WinPatterns| - k
  {
    k < |WinPatterns| && (Filled(b, WinPatterns[k], p) || FilledFrom(b, p, k + 1))
  }

  /** Whether `p` has three in a line on `b`; the same test serves the game and the search. */
  function CheckWinSimple(b: Board, p: Player): (r: bool)
    ensures r <==> exists j :: 0 <= j < |WinPatterns| && Filled(b, WinPatterns[j], p)
  {
    FilledFrom(b, p, 0)
  }

  /** Row `r` of the grid (cells 3r, 3r+1, 3r+2) holds `p`'s mark throughout. */
  predicate RowFilled(b: Board, r: nat, p: Player)
    requires r < 3
  {
    b[3 * r] == Mark(p) && b[3 * r + 1] == Mark(p) && b[3 * r + 2] == Mark(p)
  }

  /** Column `c` of the grid (cells c, c+3, c+6) holds `p`'s mark throughout. */
  predicate ColumnFilled(b: Board, c: nat, p: Player)
    requires c < 3
  {
    b[c] == Mark(p) && b[c + 3] == Mark(p) && b[c + 6] == Mark(p)
  }

  /**
    An independent, geometric description of a win: a full row, a full
    column, the main diagonal or the anti-diagonal, written with the
    row-major arithmetic of a 3x3 grid instead of the table of triples.
   */
  ghost predicate HasLine(b: Board, p: Player) {
    || (exists r :: 0 <= r < 3 && RowFilled(b, r, p))
    || (exists c :: 0 <= c < 3 && ColumnFilled(b, c, p))
    || (b[0] == Mark(p) && b[4] == Mark(p) && b[8] == Mark(p))
    || (b[2] == Mark(p) && b[4] == Mark(p) && b[6] == Mark(p))
  }

  /** Each of the eight triples is a row, a column or a diagonal. */
  lemma PatternIsLine(b: Board, p: Player, j: nat)
    requires j < |WinPatterns| && Filled(b, WinPatterns[j], p)
    ensures HasLine(b, p)
  {
    if j < 3 {
      assert RowFilled(b, j, p);
    } else if j < 6 {
      assert ColumnFilled(b, j - 3, p);
    }
  }

  /** Each row, column and diagonal is one of the eight triples. */
  lemma LineIsPattern(b: Board, p: Player)
    requires HasLine(b, p)
    ensures exists j :: 0 <= j < |WinPatterns| && Filled(b, WinPatterns[j], p)
  {
    if exists r :: 0 <= r < 3 && RowFilled(b, r, p) {
      var r :| 0 <= r < 3 && RowFilled(b, r, p);
      assert Filled(b, WinPatterns[r], p);
    } else if exists c :: 0 <= c < 3 && ColumnFilled(b, c, p) {
      var c :| 0 <= c < 3 && ColumnFilled(b, c, p);
      assert Filled(b, WinPatterns[c + 3], p);
    } else if b[0] == Mark(p) && b[4] == Mark(p) && b[8] == Mark(p) {
      assert Filled(b, WinPatterns[6], p);
    } else {
      assert Filled(b, WinPatterns[7], p);
    }
  }

  /** The table of eight triples is exactly the set of lines of the grid. */
  lemma CheckWinIsLine(b: Board, p: Player)
    ensures CheckWinSimple(b, p) <==> HasLine(b, p)
  {
    if CheckWinSimple(b, p) {
      var j :| 0 <= j < |WinPatterns| && Filled(b, WinPatterns[j], p);
      PatternIsLine(b, p, j);
    }
    if HasLine(b, p) {
      LineIsPattern(b, p);
    }
  }

  /** Every line passes through a cell of the main diagonal, so a player without one has no line. */
  lemma DiagonalMeetsEveryLine(b: Board, p: Player)
    requires b[0] != Mark(p) && b[4] != Mark(p) && b[8] != Mark(p)
    ensures !CheckWinSimple(b, p)
  {
    forall j | 0 <= j < |WinPatterns|
      ensures !Filled(b, WinPatterns[j], p)
    {
      if j == 0 || j == 3 || j == 6 {
        assert WinPatterns[j][0] == 0;
      } else if j == 1 || j == 4 || j == 7 {
        assert WinPatterns[j][1] == 4;
      } else {
        assert WinPatterns[j][2] == 8;
      }
    }
  }

  /** A line takes three cells, so a player with fewer than three marks has not won. */
  lemma WinNeedsThreeMarks(b: Board, p: Player)
    ensures CheckWinSimple(b, p) ==> Count(b, Mark(p)) >= 3
  {
    if CheckWinSimple(b, p) {
      var j :| 0 <= j < |WinPatterns| && Filled(b, WinPatterns[j], p);
      var pat := WinPatterns[j];
      PatternCellsDistinct(j);
      var b1 := b[pat[0] := Empty];
      var b2 := b1[pat[1] := Empty];
      CountUpdate(b, pat[0], Empty, Mark(p));
      CountUpdate(b1, pat[1], Empty, Mark(p));
      CountUpdate(b2, pat[2], Empty, Mark(p));
    }
  }

  /**
    Placing one player's mark on an empty cell neither creates nor removes a
    win of the other player.
   */
  lemma PlaceKeepsOtherWin(b: Board, i: Index, p: Player, q: Player)
    requires b[i] == Empty
    requires p != q
    ensures CheckWinSimple(Place(b, i, p), q) <==> CheckWinSimple(b, q)
  {
    var r := Place(b, i, p);
    if CheckWinSimple(r, q) {
      var j :| 0 <= j < |WinPatterns| && Filled(r, WinPatterns[j], q);
      assert Filled(b, WinPatterns[j], q);
    }
    if CheckWinSimple(b, q) {
      var j :| 0 <= j < |WinPatterns| && Filled(b, WinPatterns[j], q);
      assert Filled(r, WinPatterns[j], q);
    }
  }

}

=== FILE: wrappers.dfy ===
/** The optional value used where the game code returns `null` or `undefined`. */
module Wrappers {

  datatype Option<+T> = None | Some(value: T)

}
